=== FILE: README.md ===
# Rust exercises: a Dafny model

The repository is a collection of small Rust teaching exercises plus two
games built on the `rusty_engine` crate. This project models the sequential,
integer- and string-valued logic of those exercises. Each exercise file has
its own Dafny module:

- `Channels`: the lunch-order classifier of the channels exercise, and one
  cafeteria worker's send-until-failure loop.
- `DerivableTraits` and `Practice`: the `Puzzle` and `Party` records with
  their hand-written `Default`, `PartialEq` and `From` implementations.
- `Snuggle`: the `u128` function of the tests exercise and its doc-test and
  unit test.
- `Puzzles`: the puzzles library's default puzzle, its always-failing loader
  and its error messages.
- `Tutorial`: the tutorial game's score, high score, sprite labels, gopher
  spawning and reset, as a state machine driven by per-frame inputs.
- `RoadRace`: the road-race game's health counter, health text, game-over
  text and steering directions, as a state machine.
- `Idiomatic`: the `count_to_5` loop.
- `IteratorPipeline`: the `map(x * 3)` / `filter(y & 2 == 0)` pipeline.
- `ClosuresIterators`: `square`, the pair map, the in-place tripling loop,
  and the filter-then-uppercase word pipeline.

Shared modules hold what several exercises use:

- `Ints`: the integer widths (`u8`, `u16`, `u32`, `i32`, `u128`) and
  checked arithmetic.
- `Results`: `Option` and `Result`.
- `Text`: substring search, ASCII case mapping, UTF-8 byte length, and
  decimal formatting with its parse round trip.
- `Seqs`: the iterator adaptors `map`, `filter`, and a `map` whose closure
  may panic.
- `Engine`: the collision events both games receive from the engine.

Modelling choices:

- Rust integer overflow panics in a debug build. Every `+= 1`, `* 3`,
  `x * x` or `* 8` that can overflow returns an `Option`, with `None` for
  the panic. These are not preconditions.
- `to_lowercase` and `to_uppercase` are ASCII-only.
- `str::len` is the UTF-8 byte length.
- The engine's answers are inputs to each frame: keys pressed, the mouse
  clicked inside the window, the spawn timer having just finished, and the
  collision events. `one_starts_with` and `either_contains` on a collision
  pair mean "one label starts with" and "either label contains"; the engine
  crate is not part of this model.
- The road-race steering directions are `f32` values that only ever hold
  -1.0, 0.0 or 1.0. They are modelled as integers.

## Model

| member | source | states |
|---|---|---|
| Channels.ClassifySpec | exercise/channels/src/main.rs:88-95 | the chosen lunch's keyword occurs in the order, and no earlier arm's keyword does (the wildcard arm matches everything) |
| Channels.ClassifyUnique | exercise/channels/src/main.rs:88-95 | classification is total and unique: a lunch is the classification iff its keyword occurs and no earlier arm's keyword does |
| Channels.SoupHasPriority | exercise/channels/src/main.rs:91-93 | an order containing "soup" is Soup whatever else it contains |
| Channels.ClassifyCases | exercise/channels/src/main.rs:92-94 | Salad iff "salad" and no "soup"; Sandwich iff "sandwich" and neither earlier keyword; HotDog iff none of the three |
| Channels.ClassifyIsCaseSensitive | exercise/channels/src/main.rs:91-94 | "Onion Soup" is HotDog while "onion soup" is Soup |
| Channels.HotDogOrders | exercise/channels/src/main.rs:149-155 | "polish dog" and "bread" mention no keyword and are HotDog |
| Channels.CaesarSaladIsSalad | exercise/channels/src/main.rs:151 | "caesar salad" is Salad |
| Channels.OnionSoupIsSoup | exercise/channels/src/main.rs:152 | "onion soup" is Soup |
| Channels.ReubenSandwichIsSandwich | exercise/channels/src/main.rs:153 | "reuben sandwich" is Sandwich |
| Channels.FixedOrdersClassify | exercise/channels/src/main.rs:149-155 | the five orders classify as HotDog, Salad, Soup, Sandwich, HotDog |
| Channels.PrepTicks | exercise/channels/src/main.rs:101-103 | preparation takes one step per byte: between the character count and four times it, equal to it exactly for ASCII orders |
| Channels.CafeteriaWorker | exercise/channels/src/main.rs:81-118 | delivered lunches are the classifications of the first orders in order; every delivery's send succeeded; the loop takes every order, or stops right after the first failed send |
| Channels.FirstFailure | exercise/channels/src/main.rs:115-117 | the index of the first failed send: all earlier sends succeed and that one fails |
| Channels.WorkerDeliversPrefix | exercise/channels/src/main.rs:81-118 | what the worker delivers is exactly the classification of the orders before the first failed send, a prefix of the classified orders |
| DerivableTraits.Default | exercise/deriable_traits/src/main.rs:44-51 | the default puzzle has 30 pieces and is named "Forest Lake" |
| DerivableTraits.PuzzleEqIff | exercise/deriable_traits/src/main.rs:61-64 | puzzles are equal iff their piece counts agree and their names agree letter by letter up to ASCII case |
| DerivableTraits.CaseIsIgnored | exercise/deriable_traits/src/main.rs:63 | "forest lake" and "FOREST LAKE" compare equal to the default "Forest Lake" |
| DerivableTraits.DifferentPiecesDiffer | exercise/deriable_traits/src/main.rs:62 | different piece counts never compare equal, whatever the names |
| DerivableTraits.PuzzleEqIsEquivalence | exercise/deriable_traits/src/main.rs:54-70 | the equality is reflexive, symmetric and transitive, as the `Eq` marker claims |
| DerivableTraits.Clone | exercise/deriable_traits/src/main.rs:19-23 | a clone is identical to its original, field for field, and so also compares equal to it |
| DerivableTraits.IntoString | exercise/deriable_traits/src/main.rs:76-80 | the string is the puzzle's name; together with the piece count it rebuilds the unchanged puzzle |
| DerivableTraits.EqualPuzzlesHaveEqualNames | exercise/deriable_traits/src/main.rs:61-80 | equal puzzles convert to names that agree up to case |
| DerivableTraits.WithPieces | exercise/deriable_traits/src/main.rs:112-115 | the struct update keeps the default name and equals the default puzzle iff the piece count is 30 |
| DerivableTraits.TwentyPieceUpdate | exercise/deriable_traits/src/main.rs:112-115 | the 20-piece update is named "Forest Lake" and differs from the default |
| Practice.Default | exercise/deriable_traits/src/bin/practice.rs:15-23 | the default party is at a restaurant, has 8 people and a Chocolate cake |
| Practice.PartyEqIffSameCake | exercise/deriable_traits/src/bin/practice.rs:25-35 | parties are equal iff they convert to the same cake |
| Practice.PartyEqIgnoresVenue | exercise/deriable_traits/src/bin/practice.rs:25-29 | changing the venue or head count never changes the equality verdict |
| Practice.PartyEqIsEquivalence | exercise/deriable_traits/src/bin/practice.rs:1-29 | party equality is reflexive, symmetric and transitive |
| Practice.IntoCake | exercise/deriable_traits/src/bin/practice.rs:25-35 | the converted cake is the party's own: a party equals exactly the parties with that cake |
| Practice.WithCake | exercise/deriable_traits/src/bin/practice.rs:74-77 | the struct update keeps the default venue and head count and sets the cake |
| Practice.MapleBaconParty | exercise/deriable_traits/src/bin/practice.rs:74-92 | the maple-bacon party is at a restaurant with 8 people, equals the 235-person party elsewhere, and differs from the default |
| Snuggle.Snuggle | exercise/tests/src/lib.rs:10-12 | the result is eight times the input; it panics exactly when eight times the input reaches 2^128 |
| Snuggle.SnuggleMonotone | exercise/tests/src/lib.rs:10-12 | more bunnies never give a smaller result, and a smaller input never overflows when a larger one does not |
| Snuggle.SnuggleDocTest | exercise/tests/src/lib.rs:5-9 | `snuggle(5)` is 40 |
| Snuggle.SnuggleUnitTest | exercise/tests/src/lib.rs:31-34 | `snuggle(2)` is 16 |
| Puzzles.Default | exercise/puzzles/src/lib.rs:5-38 | `PUZZLE_PIECES` is 42; the default puzzle has that many pieces and is named "Default" |
| Puzzles.New | exercise/puzzles/src/lib.rs:18-22 | `new` returns exactly the default puzzle |
| Puzzles.FromFile | exercise/puzzles/src/lib.rs:25-28 | loading fails with `MissingPiece` whatever the file |
| Puzzles.Message | exercise/puzzles/src/lib.rs:42-47 | `MissingPiece` displays as "Missing a piece"; `WontFit(n)` as "Piece n doesn't fit!" with n in decimal |
| Puzzles.MessageInjective | exercise/puzzles/src/lib.rs:42-47 | two errors display the same text iff they are the same error, piece number included |
| Puzzles.WontFitExample | exercise/puzzles/src/lib.rs:45-46 | `WontFit(7)` displays "Piece 7 doesn't fit!", which differs from the `MissingPiece` text |
| Tutorial.DefaultState | rusty_engine_project/tutorial/src/main.rs:15-26 | the game starts with score, high score and gopher index all zero |
| Tutorial.Initial | rusty_engine_project/tutorial/src/main.rs:48-83 | the first frame sees the player sprite and the texts "Score: 0" and "High Score: 0" |
| Tutorial.InitialInv | rusty_engine_project/tutorial/src/main.rs:15-83 | the starting world satisfies the game invariant |
| Tutorial.GopherLabelInjective | rusty_engine_project/tutorial/src/main.rs:237-238 | two gopher labels are equal iff their indices are |
| Tutorial.GopherLabelIsNotPlayer | rusty_engine_project/tutorial/src/main.rs:237 | no gopher label is "player" |
| Tutorial.OnCollision | rusty_engine_project/tutorial/src/main.rs:163-179 | a Begin event with a label starting "player" adds exactly one to the score, panics iff the score is at the `u32` maximum, removes every pair label other than "player" and no other sprite, shows "Score: n", and raises the high score only to the new score; any other event changes nothing |
| Tutorial.OnCollisionPreservesInv | rusty_engine_project/tutorial/src/main.rs:163-179 | a collision keeps the high score at or above the score, both texts in step, the player sprite present and gopher labels fresh |
| Tutorial.HandleCollisionsSummary | rusty_engine_project/tutorial/src/main.rs:138-186 | the drained events add one point per scoring event, keep the invariant, never lower the high score and leave the gopher index alone |
| Tutorial.Spawn | rusty_engine_project/tutorial/src/main.rs:234-263 | a spawn adds the sprite "gopher{index}" and increments the index, panicking iff the index is at the `i32` maximum; nothing else changes |
| Tutorial.HandleCollisionsKeepsIndex | rusty_engine_project/tutorial/src/main.rs:138-186 | draining the collision events never changes the gopher index, whether or not the game panics later |
| Tutorial.SpawnIsFresh | rusty_engine_project/tutorial/src/main.rs:234-255 | the spawned label names no existing sprite, so `add_sprite` never replaces one, and the invariant survives |
| Tutorial.SpawnIfPreservesInv | rusty_engine_project/tutorial/src/main.rs:234-263 | a mouse or timer spawn keeps the invariant and the high score |
| Tutorial.Reset | rusty_engine_project/tutorial/src/main.rs:266-270 | reset sets the score to 0 and its text to "Score: 0", leaves the high score and everything else untouched, and keeps the invariant |
| Tutorial.FrameStepPreservesInv | rusty_engine_project/tutorial/src/main.rs:86-271 | after a frame the invariant holds, every collision event has been consumed, the high score has not gone down, the exit flag is set iff it was set before or the quit key was pressed, and the gopher index has gone up by one per click spawn and one per timer spawn |
| Tutorial.RunPreservesInv | rusty_engine_project/tutorial/src/main.rs:86-271 | over any run of frames the invariant holds at the end, and neither the high score nor the gopher index ever decreases |
| Tutorial.ReachableInv | rusty_engine_project/tutorial/src/main.rs:15-271 | every world reached from the start has high score at least the score |
| Tutorial.FrameSpawnsConsecutive | rusty_engine_project/tutorial/src/main.rs:234-255 | a frame's click and timer spawns name `gopher{i}` and `gopher{i+1}` from the index i the frame starts with, and leave the index that many higher |
| Tutorial.RunSpawnsConsecutive | rusty_engine_project/tutorial/src/main.rs:86-271 | over any run, the spawned labels are `gopher{i}` for each i from the starting index up to the final one, in spawn order |
| Tutorial.SpawnedLabelsDistinct | rusty_engine_project/tutorial/src/main.rs:234-255 | no label is spawned twice over any run, and from a world satisfying the invariant no spawned label names a sprite present at the start |
| RoadRace.DefaultState | rusty_engine_project/road_race/src/main.rs:13-20 | the game starts with health 3, not lost |
| RoadRace.Initial | rusty_engine_project/road_race/src/main.rs:42-69 | the first frame sees the text "Health: 3" and no game-over text |
| RoadRace.Direction | rusty_engine_project/road_race/src/main.rs:82-99 | a player's direction is in {-1, 0, 1}; it is 1 iff only the up key is held and -1 iff only the down key is |
| RoadRace.Directions | rusty_engine_project/road_race/src/main.rs:82-99 | player one steers with Up/Down and player two with W/S |
| RoadRace.BothKeysCancel | rusty_engine_project/road_race/src/main.rs:85-91 | holding both keys gives direction 0 |
| RoadRace.OnCollision | rusty_engine_project/road_race/src/main.rs:128-141 | a non-End event mentioning a player lowers positive health by one and shows "Health: h"; at zero health, or for any other event, nothing changes |
| RoadRace.HealthAfterEvents | rusty_engine_project/road_race/src/main.rs:128-141 | after the events, health is the old health minus the number of hurting events, but never below zero; nothing but health and its text changes |
| RoadRace.HealthNeverIncreases | rusty_engine_project/road_race/src/main.rs:128-141 | collisions never raise health |
| RoadRace.HandleCollisionsKeepsText | rusty_engine_project/road_race/src/main.rs:127-141 | the health text keeps showing the health counter |
| RoadRace.FrameStep | rusty_engine_project/road_race/src/main.rs:72-141 | a frame consumes every collision event and shows the game-over text once health is zero |
| RoadRace.FrameStepKeeps | rusty_engine_project/road_race/src/main.rs:72-142 | a frame keeps `lost`, never raises health and keeps the health text in step |
| RoadRace.RunKeepsLostAndText | rusty_engine_project/road_race/src/main.rs:72-142 | over any run of frames `lost` is unchanged, health never rises and the text shows it |
| RoadRace.NeverLost | rusty_engine_project/road_race/src/main.rs:7-142 | from the start of the game `lost` stays false forever |
| Idiomatic.CountTo5 | exercise/idiomatic/src/main.rs:3-12 | the loop terminates, breaking at 6, the first number above both `PI as i32` and 5, and the function returns 5 |
| IteratorPipeline.BitOneClearIsBitTest | exercise/iterator/src/main.rs:27 | the filter `y & 2 == 0` keeps exactly the values whose remainder modulo 4 is below 2 |
| IteratorPipeline.BitOneClearIsNotEvenness | exercise/iterator/src/main.rs:27 | the filter is not a parity test: 18 is even and dropped, 21 is odd and kept |
| IteratorPipeline.Pipeline | exercise/iterator/src/main.rs:24-28 | it panics iff some tripled input overflows `i32`; every kept value is a multiple of 3 with bit 1 clear; no more values come out than went in |
| IteratorPipeline.PipelineKeepsExactly | exercise/iterator/src/main.rs:24-28 | the output is an order-preserving subsequence of the tripled inputs; each value with bit 1 clear occurs as often as among the tripled inputs, any other value never; its length is the number of tripled inputs with bit 1 clear |
| IteratorPipeline.PipelineExample | exercise/iterator/src/main.rs:23-28 | `[6, 7, 8]` gives `[21, 24]` |
| ClosuresIterators.Square | exercise/closures_iterators/src/main.rs:3 | `square(x)` is x times x, never negative, and panics iff that leaves `i32` |
| ClosuresIterators.SquareFacts | exercise/closures_iterators/src/main.rs:3-4 | squaring ignores the sign and `square(5)` is 25 |
| ClosuresIterators.BumpPairs | exercise/closures_iterators/src/main.rs:6-10 | each first component goes up by one and each second is unchanged, same length; panics iff some first component is the `i32` maximum |
| ClosuresIterators.BumpPairsExample | exercise/closures_iterators/src/main.rs:6-10 | `[(0,1),(2,3),(4,5)]` gives `[(1,1),(3,3),(5,5)]` |
| ClosuresIterators.TripleEach | exercise/closures_iterators/src/main.rs:12-16 | the loop triples every element in place, same length, and panics iff some product leaves `i32` |
| ClosuresIterators.TripleEachExample | exercise/closures_iterators/src/main.rs:12-17 | `[1, 2, 3, 4]` becomes `[3, 6, 9, 12]` |
| ClosuresIterators.TripleEachOnExample | exercise/closures_iterators/src/main.rs:12-17 | the loop run on `vec![1, 2, 3, 4]` does not panic and leaves `[3, 6, 9, 12]` |
| ClosuresIterators.Transform | exercise/closures_iterators/src/main.rs:27-31 | there is one output word per input word without 'h'; every output word is the upper-case form of such an input word, and every such word appears upper-cased |
| ClosuresIterators.TransformAppend | exercise/closures_iterators/src/main.rs:27-31 | the pipeline works word by word: transforming a concatenation is concatenating the transforms, so output order follows input order |
| ClosuresIterators.TransformSingle | exercise/closures_iterators/src/main.rs:27-31 | a single word yields its upper-case form if it has no 'h', and nothing otherwise |
| ClosuresIterators.WordsKept | exercise/closures_iterators/src/main.rs:19-29 | the filter keeps "autobot", "car", "description", "energon" in that order |
| ClosuresIterators.TransformExample | exercise/closures_iterators/src/main.rs:19-32 | the result is `["AUTOBOT", "CAR", "DESCRIPTION", "ENERGON"]` |
| Seqs.FilterSpec | exercise/iterator/src/main.rs:27 | `filter` keeps exactly the elements satisfying the predicate, as an order-preserving subsequence, each as often as it occurs in the input; the output length is the number of satisfying positions |
| Seqs.FilterAppend | exercise/iterator/src/main.rs:27 | `filter` works element by element: filtering a concatenation is concatenating the filtered parts |
| Seqs.FilterCount | exercise/iterator/src/main.rs:27 | the number of elements `filter` keeps is the number of positions whose element satisfies the predicate |
| Seqs.TryMap | exercise/iterator/src/main.rs:26 | a `map` whose closure may panic panics iff some element's image does, and otherwise maps element by element |
| Text.LowerEqualIff | exercise/deriable_traits/src/main.rs:63 | two strings have equal lower-case forms iff they agree letter by letter up to ASCII case |
| Text.ByteLenBounds | exercise/channels/src/main.rs:101 | a string's byte length is between its character count and four times it, and equals the count iff the string is ASCII |
| Text.DecimalRoundTrip | exercise/puzzles/src/lib.rs:45 | reading back the decimal form of n gives n |
| Text.NatToStringInjective | exercise/puzzles/src/lib.rs:45-46 | different numbers have different decimal forms |
| Text.IntToStringInjective | rusty_engine_project/tutorial/src/main.rs:237 | different `i32` values, negatives included, format differently |

## Left out

- Threads, channels, sleeps and joins: the two-worker distribution in `exercise/channels/src/main.rs:121-184` and all of `exercise/kitchen/src/main.rs`. Only one worker's loop is modelled, with the outcome of each send as an input.
- The preparation sleeps (`exercise/channels/src/main.rs:101-103`): only their count is modelled, because the sleeping itself is timing.
- Logging (`info!`, `error!`, `exercise/logging/src/main.rs`) and every `println!`: these are side effects only.
- Engine-owned work in both games: rendering, audio, window layout, text placement, float positions, rotations and scales, the spawn `Timer`'s clock and `thread_rng`. These are floats, randomness or the host runtime. The timer's "just finished" is a boolean input.
- The engine's internals: collision detection, `add_sprite`, the key and mouse state, and the drain of `collision_events`. The model receives the events and answers, and removes or adds labels in a set.
- The road-race road-line and obstacle movement (`rusty_engine_project/road_race/src/main.rs:101-125`): float positions and random respawns.
- Unicode case mapping: `to_lowercase` and `to_uppercase` are modelled on ASCII letters only; other characters are left unchanged.
- Criterion benchmarks (`exercise/benchmark/benches/snuggle_speed.rs`, `exercise/tests/benches/sploosh_speed.rs`): benchmark drivers only, and `sploosh` is not part of this model.
- The `bunny_result` and `should_panic` tests in `exercise/tests/src/lib.rs:36-49`: they exercise std parsing and a panic, not repository logic.
- `exercise/exceptions/src/main.rs`: its manual `Display` conflicts with the one `thiserror` derives, so the file does not compile. The same messages are modelled through `exercise/puzzles/src/lib.rs`.
- `exercise/exceptions/src/bin/error_handling.rs`: it panics unconditionally and refers to undefined items.
- `exercise/puzzle_game/src/main.rs`: file opening and `anyhow` context, which are I/O plumbing.
- `exercise/docs/src/main.rs`: only a constant and a trivial constructor.
- The `PuzzleType` enum and the `show`, `admire_cake` and `smell_cake` helpers: they only print.
- `Debug` formatting, `#[non_exhaustive]`, and `Copy`/`Clone` move semantics: these are not observable in the logic.
- Snuggle.Snuggle: a release build would wrap instead of panicking. Only the debug-build panic is modelled, as `None`.
- Tutorial.OnCollision: the `u32` score overflow is the debug-build panic, returned as `None`; the model does not continue past it.
- Tutorial.Spawn: the `i32` gopher-index overflow is the debug-build panic, returned as `None`.
- ClosuresIterators.Square: the `i32` overflow is the debug-build panic, returned as `None`.
- ClosuresIterators.BumpPairs: the `i32` overflow is the debug-build panic, returned as `None`.
- IteratorPipeline.Pipeline: the `i32` overflow in the map stage is the debug-build panic, returned as `None`.
- ClosuresIterators.TripleEach: it triples a copy of the vector instead of mutating it through `iter_mut`, and returns `None` on overflow instead of leaving a partly tripled vector behind a panic.

=== FILE: channels.dfy ===
/** The cafeteria worker of the channels exercise: orders are classified
    into lunches by keyword, each takes one tick of preparation per byte,
    and the worker forwards lunches until a send fails. The two threads and
    the channels themselves are not modelled; one worker's loop is run
    sequentially over the orders it receives, with the outcome of each send
    given as an input. */
module Channels {
  import opened Text
  import Seqs

  datatype Lunch = Soup | Salad | Sandwich | HotDog

  /** The substring that selects each lunch; the wildcard arm matches the
      empty pattern, which every order contains. */
  function Keyword(lunch: Lunch): string {
    match lunch
    case Soup => "soup"
    case Salad => "salad"
    case Sandwich => "sandwich"
    case HotDog => ""
  }

  /** Position of a lunch's arm in the `match`: earlier arms win. */
  function Rank(lunch: Lunch): nat {
    match lunch
    case Soup => 0
    case Salad => 1
    case Sandwich => 2
    case HotDog => 3
  }

  /** The match in `cafeteria_worker`: guards tried in order, case-sensitive.
      What it picks is stated by `ClassifySpec`. */
  function Classify(order: string): Lunch {
    if Contains(order, "soup") then Soup
    else if Contains(order, "salad") then Salad
    else if Contains(order, "sandwich") then Sandwich
    else HotDog
  }

  /** The chosen lunch's keyword occurs in the order, and no earlier arm's
      keyword does. */
  lemma ClassifySpec(order: string)
    ensures Contains(order, Keyword(Classify(order)))
    ensures forall earlier: Lunch :: Rank(earlier) < Rank(Classify(order)) ==> !Contains(order, Keyword(earlier))
  {
    assert OccursAt(order, "", 0);
  }

  /** Exactly one lunch fits an order: the one whose keyword occurs while
      no earlier arm's keyword does. */
  lemma ClassifyUnique(order: string, lunch: Lunch)
    ensures (&& Contains(order, Keyword(lunch))
             && forall earlier: Lunch :: Rank(earlier) < Rank(lunch) ==> !Contains(order, Keyword(earlier)))
            <==> lunch == Classify(order)
  {
    ClassifySpec(order);
  }

  /** An order mentioning soup is soup, whatever else it mentions. */
  lemma SoupHasPriority(order: string)
    requires Contains(order, "soup")
    ensures Classify(order) == Soup
  {
  }

  /** The four outcomes, each as a condition on the three keywords. */
  lemma ClassifyCases(order: string)
    ensures Classify(order) == Salad <==> !Contains(order, "soup") && Contains(order, "salad")
    ensures Classify(order) == Sandwich <==>
      !Contains(order, "soup") && !Contains(order, "salad") && Contains(order, "sandwich")
    ensures Classify(order) == HotDog <==>
      !Contains(order, "soup") && !Contains(order, "salad") && !Contains(order, "sandwich")
  {
  }

  /** Matching is case-sensitive: a capitalised keyword is not recognised. */
  lemma ClassifyIsCaseSensitive()
    ensures Classify("Onion Soup") == HotDog
    ensures Classify("onion soup") == Soup
  {
    AbsentCharNotContained("Onion Soup", "soup", 's');
    AbsentCharNotContained("Onion Soup", "salad", 'a');
    AbsentCharNotContained("Onion Soup", "sandwich", 'a');
    ContainsAt("onion soup", "soup", 6);
  }

  /** The orders `main` sends, in order. */
  const FixedOrders: seq<string> := ["polish dog", "caesar salad", "onion soup", "reuben sandwich", "bread"]

  /** The two orders mentioning none of the keywords fall through to the
      wildcard arm. */
  lemma HotDogOrders()
    ensures Classify("polish dog") == HotDog
    ensures Classify("bread") == HotDog
  {
    AbsentCharNotContained("polish dog", "soup", 'u');
    AbsentCharNotContained("polish dog", "salad", 'a');
    AbsentCharNotContained("polish dog", "sandwich", 'a');
    AbsentCharNotContained("bread", "soup", 'u');
    AbsentCharNotContained("bread", "salad", 'l');
    AbsentCharNotContained("bread", "sandwich", 'n');
  }

  lemma CaesarSaladIsSalad()
    ensures Classify("caesar salad") == Salad
  {
    AbsentCharNotContained("caesar salad", "soup", 'o');
    ContainsAt("caesar salad", "salad", 7);
  }

  lemma OnionSoupIsSoup()
    ensures Classify("onion soup") == Soup
  {
    ContainsAt("onion soup", "soup", 6);
  }

  lemma ReubenSandwichIsSandwich()
    ensures Classify("reuben sandwich") == Sandwich
  {
    AbsentCharNotContained("reuben sandwich", "soup", 'o');
    AbsentCharNotContained("reuben sandwich", "salad", 'l');
    ContainsAt("reuben sandwich", "sandwich", 7);
  }

  /** Classifying a sequence equal to the fixed orders, element by element.
      The orders arrive as a parameter equal to `FixedOrders` so that the
      constant's literal is not unfolded into every proof step. */
  lemma ClassifyOrders(orders: seq<string>)
    requires orders == FixedOrders
    ensures Seqs.Map(orders, Classify) == [HotDog, Salad, Soup, Sandwich, HotDog]
  {
    HotDogOrders();
    CaesarSaladIsSalad();
    OnionSoupIsSoup();
    ReubenSandwichIsSandwich();
  }

  /** The five fixed orders come back as HotDog, Salad, Soup, Sandwich, HotDog. */
  lemma FixedOrdersClassify()
    ensures Seqs.Map(FixedOrders, Classify) == [HotDog, Salad, Soup, Sandwich, HotDog]
  {
    ClassifyOrders(FixedOrders);
  }

  /** Preparation sleeps once per byte of the order (`0..order.len()`). */
  function PrepTicks(order: string): (ticks: nat)
    ensures |order| <= ticks <= 4 * |order|
    ensures ticks == |order| <==> IsAscii(order)
  {
    ByteLenBounds(order);
    ByteLen(order)
  }

  /** One worker's loop over the orders it receives: classify, prepare,
      send; stop right after the first failed send. `sendOk(k)` is the
      outcome of the worker's `k`-th send. Returns the lunches delivered and
      the number of orders taken off the channel. */
  method CafeteriaWorker(orders: seq<string>, sendOk: nat -> bool) returns (delivered: seq<Lunch>, taken: nat)
    ensures |delivered| <= taken <= |orders|
    ensures forall k :: 0 <= k < |delivered| ==> delivered[k] == Classify(orders[k])
    ensures forall k: nat :: k < |delivered| ==> sendOk(k)
    ensures taken == |delivered| ==> taken == |orders|
    ensures taken != |delivered| ==> taken == |delivered| + 1 && !sendOk(|delivered|)
  {
    delivered := [];
    taken := 0;
    while taken < |orders|
      invariant taken <= |orders|
      invariant taken == |delivered|
      invariant forall k :: 0 <= k < taken ==> delivered[k] == Classify(orders[k])
      invariant forall k: nat :: k < taken ==> sendOk(k)
    {
      var lunch := Classify(orders[taken]);
      // The preparation sleeps (one per byte of the order) take no effect
      // on the state; their count is what `PrepTicks` describes.
      ghost var ticks := PrepTicks(orders[taken]);
      taken := taken + 1;
      if !sendOk(taken - 1) {
        break;
      }
      delivered := delivered + [lunch];
    }
  }

  /** Index of the first failed send among the first `n`, or `n`. */
  function FirstFailure(n: nat, sendOk: nat -> bool): (k: nat)
    ensures k <= n
    ensures forall j: nat :: j < k ==> sendOk(j)
    ensures k < n ==> !sendOk(k)
  {
    if n == 0 then 0
    else
      var k := FirstFailure(n - 1, sendOk);
      if k < n - 1 then k else if sendOk(n - 1) then n else n - 1
  }

  /** What the worker delivers is the classification of the orders before
      the first failed send. */
  lemma WorkerDeliversPrefix(orders: seq<string>, sendOk: nat -> bool, delivered: seq<Lunch>, taken: nat)
    requires |delivered| <= taken <= |orders|
    requires forall k :: 0 <= k < |delivered| ==> delivered[k] == Classify(orders[k])
    requires forall k: nat :: k < |delivered| ==> sendOk(k)
    requires taken == |delivered| ==> taken == |orders|
    requires taken != |delivered| ==> taken == |delivered| + 1 && !sendOk(|delivered|)
    ensures |delivered| == FirstFailure(|orders|, sendOk)
    ensures delivered == Seqs.Map(orders, Classify)[..FirstFailure(|orders|, sendOk)]
  {
  }
}

=== FILE: closures_iterators.dfy ===
/** The closures-and-iterators exercise: a squaring closure, a map over
    pairs, an in-place tripling loop over a vector, and a filter-then-map
    pipeline over words. Integer literals default to `i32`, whose overflow
    panics in a debug build (`None` here). */
module ClosuresIterators {
  import opened Ints
  import opened Results
  import opened Text
  import opened Seqs

  /** The closure `|x| x * x`. */
  function Square(x: I32): (r: Option<I32>)
    ensures r.Some? <==> InI32(x as int * x)
    ensures r.Some? ==> r.value >= 0 && r.value == x as int * x
  {
    MulI32(x, x)
  }

  /** Squaring forgets the sign, and `square(5)` is 25. */
  lemma SquareFacts(x: I32)
    requires InI32(-(x as int))
    ensures Square(x) == Square(-x)
    ensures Square(5) == Some(25)
  {
  }

  /** The closure `|(x, y)| (x + 1, y)`. */
  function BumpFirst(pair: (I32, I32)): Option<(I32, I32)> {
    match AddI32(pair.0, 1)
    case None => None
    case Some(x) => Some((x, pair.1))
  }

  /** `pairs.into_iter().map(|(x, y)| (x + 1, y))`: one more in every first
      component, second components and length unchanged. */
  function BumpPairs(pairs: seq<(I32, I32)>): (r: Option<seq<(I32, I32)>>)
    ensures r.None? <==> exists i :: 0 <= i < |pairs| && pairs[i].0 == I32_LIMIT - 1
    ensures r.Some? ==> |r.value| == |pairs|
    ensures r.Some? ==> forall i :: 0 <= i < |pairs| ==>
      r.value[i].0 == pairs[i].0 + 1 && r.value[i].1 == pairs[i].1
  {
    TryMap(pairs, BumpFirst)
  }

  lemma BumpPairsExample()
    ensures BumpPairs([(0, 1), (2, 3), (4, 5)]) == Some([(1, 1), (3, 3), (5, 5)])
  {
    var pairs: seq<(I32, I32)> := [(0, 1), (2, 3), (4, 5)];
    assert BumpFirst(pairs[0]).Some? && BumpFirst(pairs[1]).Some? && BumpFirst(pairs[2]).Some?;
    var r := BumpPairs(pairs);
    assert r.Some?;
    assert r.value == [(1, 1), (3, 3), (5, 5)];
  }

  /** `after` is `before` with every element tripled in place. */
  ghost predicate TripledInPlace(before: seq<int>, after: seq<int>) {
    |after| == |before| && forall i :: 0 <= i < |before| ==> after[i] == 3 * before[i]
  }

  /** `for x in numbers.iter_mut() { *x = *x * 3; }`, on a copy of the
      vector; `None` if some product overflows, which panics part-way. */
  method TripleEach(numbers: seq<I32>) returns (r: Option<seq<I32>>)
    ensures r.None? <==> exists i :: 0 <= i < |numbers| && !InI32(3 * numbers[i] as int)
    ensures r.Some? ==> TripledInPlace(numbers, r.value)
  {
    var xs := numbers;
    var i := 0;
    while i < |xs|
      invariant 0 <= i <= |xs| == |numbers|
      invariant forall j :: 0 <= j < i ==> xs[j] as int == 3 * numbers[j] as int
      invariant forall j :: i <= j < |xs| ==> xs[j] == numbers[j]
      invariant forall j :: 0 <= j < i ==> InI32(3 * numbers[j] as int)
    {
      match MulI32(xs[i], 3) {
        case None =>
          return None;
        case Some(y) =>
          xs := xs[i := y];
          i := i + 1;
      }
    }
    r := Some(xs);
  }

  /** `vec![1, 2, 3, 4]` becomes `[3, 6, 9, 12]`. */
  lemma TripleEachExample(after: seq<int>)
    requires TripledInPlace([1, 2, 3, 4], after)
    ensures after == [3, 6, 9, 12]
  {
  }

  /** The loop itself on `vec![1, 2, 3, 4]`: no product overflows, and the
      vector comes back as `[3, 6, 9, 12]`. */
  method TripleEachOnExample() returns (r: Option<seq<I32>>)
    ensures r == Some([3, 6, 9, 12])
  {
    var numbers: seq<I32> := [1, 2, 3, 4];
    r := TripleEach(numbers);
    assert forall i :: 0 <= i < |numbers| ==> InI32(3 * numbers[i] as int);
    TripleEachExample(r.value);
  }

  /** The filter closure `|word| !word.contains("h")`. */
  predicate LacksH(word: string) {
    !Contains(word, "h")
  }

  /** `words.into_iter().filter(..).map(|x| x.to_uppercase()).collect()`:
      one upper-cased word per input word without 'h'. Order is stated by
      `TransformAppend` and `TransformSingle`. */
  function Transform(words: seq<string>): (r: seq<string>)
    ensures |r| == CountIf(words, LacksH)
    ensures forall i :: 0 <= i < |r| ==> exists j :: 0 <= j < |words| && LacksH(words[j]) && r[i] == ToUpper(words[j])
    ensures forall j :: 0 <= j < |words| && LacksH(words[j]) ==> ToUpper(words[j]) in r
  {
    var kept := Filter(words, LacksH);
    FilterSpec(words, LacksH);
    assert forall i :: 0 <= i < |kept| ==> exists j :: 0 <= j < |words| && words[j] == kept[i];
    Map(kept, ToUpper)
  }

  /** The pipeline works word by word: on a concatenation it is the
      concatenation of the two results, so the output keeps input order. */
  lemma {:induction false} TransformAppend(a: seq<string>, b: seq<string>)
    ensures Transform(a + b) == Transform(a) + Transform(b)
  {
    FilterAppend(a, b, LacksH);
    MapAppend(Filter(a, LacksH), Filter(b, LacksH), ToUpper);
  }

  /** A single word comes out upper-cased if it lacks 'h', and is dropped
      otherwise. */
  lemma {:induction false} TransformSingle(w: string)
    ensures Transform([w]) == if LacksH(w) then [ToUpper(w)] else []
  {
    var empty: seq<string> := [];
    FilterStep(w, empty, LacksH);
    assert [w] + empty == [w];
  }

  const Words: seq<string> := ["autobot", "beach", "car", "description", "energon", "frothy"]

  /** Which of the six words the filter closure keeps. */
  lemma WordVerdicts()
    ensures LacksH("autobot") && !LacksH("beach") && LacksH("car")
    ensures LacksH("description") && LacksH("energon") && !LacksH("frothy")
  {
    AbsentCharNotContained("autobot", "h", 'h');
    ContainsAt("beach", "h", 4);
    AbsentCharNotContained("car", "h", 'h');
    AbsentCharNotContained("description", "h", 'h');
    AbsentCharNotContained("energon", "h", 'h');
    ContainsAt("frothy", "h", 4);
  }

  /** The filter on six elements, knowing only which of them it keeps. */
  lemma FilterSix<T>(a: T, b: T, c: T, d: T, e: T, f: T, p: T -> bool)
    requires p(a) && !p(b) && p(c) && p(d) && p(e) && !p(f)
    ensures Filter([a, b, c, d, e, f], p) == [a, c, d, e]
  {
    var empty: seq<T> := [];
    assert Filter([f], p) == [] by {
      FilterStep(f, empty, p);
      assert [f] + empty == [f];
    }
    assert Filter([e, f], p) == [e] by {
      FilterStep(e, [f], p);
      assert [e] + [f] == [e, f];
    }
    assert Filter([d, e, f], p) == [d, e] by {
      FilterStep(d, [e, f], p);
      assert [d] + [e, f] == [d, e, f];
    }
    assert Filter([c, d, e, f], p) == [c, d, e] by {
      FilterStep(c, [d, e, f], p);
      assert [c] + [d, e, f] == [c, d, e, f];
    }
    assert Filter([b, c, d, e, f], p) == [c, d, e] by {
      FilterStep(b, [c, d, e, f], p);
      assert [b] + [c, d, e, f] == [b, c, d, e, f];
    }
    FilterStep(a, [b, c, d, e, f], p);
    assert [a] + [b, c, d, e, f] == [a, b, c, d, e, f];
  }

  /** The filter keeps the four words without 'h', in their order. The
      words arrive as a parameter equal to `Words` so that the constant's
      literal is not unfolded into every proof step. */
  lemma WordsKept(words: seq<string>)
    requires words == Words
    ensures Filter(words, LacksH) == ["autobot", "car", "description", "energon"]
  {
    WordVerdicts();
    FilterSix("autobot", "beach", "car", "description", "energon", "frothy", LacksH);
  }

  /** `to_uppercase` on the four kept words. */
  lemma KeptWordsUpper()
    ensures ToUpper("autobot") == "AUTOBOT" && ToUpper("car") == "CAR"
    ensures ToUpper("description") == "DESCRIPTION" && ToUpper("energon") == "ENERGON"
  {
  }

  /** The printed result: the four words without 'h', upper-cased, in order. */
  lemma TransformExample()
    ensures Transform(Words) == ["AUTOBOT", "CAR", "DESCRIPTION", "ENERGON"]
  {
    WordsKept(Words);
    KeptWordsUpper();
  }
}

=== FILE: derivable_traits.dfy ===
/** The `Puzzle` record of the derivable-traits exercise: a hand-written
    `Default`, a hand-written equality that ignores the letter case of the
    name, the `Eq` marker it justifies, and the conversion to `String`. */
module DerivableTraits {
  import opened Ints
  import opened Text

  datatype Puzzle = Puzzle(numPieces: U32, name: string)

  /** `impl Default for Puzzle`. */
  function Default(): (p: Puzzle)
    ensures p.numPieces == 30 && p.name == "Forest Lake"
  {
    Puzzle(30, "Forest Lake")
  }

  /** `impl PartialEq for Puzzle`: same piece count, same lower-cased name. */
  predicate PuzzleEq(a: Puzzle, b: Puzzle) {
    a.numPieces == b.numPieces && ToLower(a.name) == ToLower(b.name)
  }

  /** Two puzzles are equal exactly when their piece counts agree and their
      names agree letter by letter up to case. */
  lemma PuzzleEqIff(a: Puzzle, b: Puzzle)
    ensures PuzzleEq(a, b) <==> a.numPieces == b.numPieces && EqualIgnoringCase(a.name, b.name)
  {
    LowerEqualIff(a.name, b.name);
  }

  /** Names differing only in letter case compare equal. */
  lemma CaseIsIgnored()
    ensures PuzzleEq(Puzzle(30, "forest lake"), Default())
    ensures PuzzleEq(Puzzle(30, "FOREST LAKE"), Default())
  {
    assert ToLower("forest lake") == "forest lake";
    assert ToLower("FOREST LAKE") == "forest lake";
    assert ToLower("Forest Lake") == "forest lake";
  }

  /** Different piece counts never compare equal, whatever the names. */
  lemma DifferentPiecesDiffer(a: Puzzle, b: Puzzle)
    requires a.numPieces != b.numPieces
    ensures !PuzzleEq(a, b)
  {
  }

  /** The `Eq` marker is sound: the equality is an equivalence relation. */
  lemma PuzzleEqIsEquivalence(a: Puzzle, b: Puzzle, c: Puzzle)
    ensures PuzzleEq(a, a)
    ensures PuzzleEq(a, b) ==> PuzzleEq(b, a)
    ensures PuzzleEq(a, b) && PuzzleEq(b, c) ==> PuzzleEq(a, c)
  {
  }

  /** `#[derive(Clone)]`: a field-by-field copy, identical to the original
      and hence equal to it under the case-insensitive comparison too. */
  function Clone(p: Puzzle): (q: Puzzle)
    ensures q == p
    ensures PuzzleEq(q, p)
  {
    Puzzle(p.numPieces, p.name)
  }

  /** `impl From<&Puzzle> for String`: a copy of the name. The puzzle is
      only borrowed, so it is still there afterwards. */
  function IntoString(p: Puzzle): (s: string)
    ensures Puzzle(p.numPieces, s) == p
  {
    p.name
  }

  /** Equal puzzles convert to names that agree up to case. */
  lemma EqualPuzzlesHaveEqualNames(a: Puzzle, b: Puzzle)
    requires PuzzleEq(a, b)
    ensures EqualIgnoringCase(IntoString(a), IntoString(b))
  {
    LowerEqualIff(a.name, b.name);
  }

  /** `Puzzle { num_pieces: n, ..Default::default() }`. */
  function WithPieces(n: U32): (p: Puzzle)
    ensures p.numPieces == n
    ensures p.name == Default().name
    ensures PuzzleEq(p, Default()) <==> n == 30
  {
    Default().(numPieces := n)
  }

  /** The struct update in `main` gives 20 pieces named "Forest Lake",
      which is therefore not equal to the default puzzle. */
  lemma TwentyPieceUpdate()
    ensures WithPieces(20) == Puzzle(20, "Forest Lake")
    ensures !PuzzleEq(WithPieces(20), Default())
  {
  }
}

=== FILE: engine.dfy ===
/** The slice of the game engine's interface both games use: collision
    events and the label queries on a colliding pair. Detection itself is
    the engine's business; the model only receives the events. */
module Engine {
  import opened Text

  datatype CollisionState = Begin | End

  /** The two sprite labels of a collision, in no particular order. */
  datatype CollisionPair = CollisionPair(first: string, second: string)

  datatype CollisionEvent = CollisionEvent(state: CollisionState, pair: CollisionPair)

  /** `CollisionPair::one_starts_with`: either label starts with `text`. */
  predicate OneStartsWith(pair: CollisionPair, text: string) {
    StartsWith(pair.first, text) || StartsWith(pair.second, text)
  }

  /** `CollisionPair::either_contains`: either label contains `text`. */
  predicate EitherContains(pair: CollisionPair, text: string) {
    Contains(pair.first, text) || Contains(pair.second, text)
  }

  function Labels(pair: CollisionPair): set<string> {
    {pair.first, pair.second}
  }
}

=== FILE: idiomatic.dfy ===
/** `count_to_5` from the idiomatic-Rust exercise: a `loop` that counts up
    until `number > PI as i32 && number > 5`, then returns the literal 5. */
module Idiomatic {

  /** `std::f64::consts::PI as i32`: the float-to-int cast truncates
      3.14159… toward zero. */
  const PI_AS_I32: int := 3

  /** The loop's exit test `number > PI as i32 && number > 5`. */
  predicate ExitTest(number: int) {
    number > PI_AS_I32 && number > 5
  }

  /** Returns the function's result and, alongside it, the value `number`
      held when the loop broke out. */
  method CountTo5() returns (result: int, exitNumber: int)
    ensures result == 5
    ensures exitNumber == 6
    ensures ExitTest(exitNumber)
    ensures forall n :: 0 <= n < exitNumber ==> !ExitTest(n)
  {
    var number := 0;
    while true
      invariant 0 <= number <= 6
      invariant forall n :: 0 <= n < number ==> !ExitTest(n)
      decreases 6 - number
    {
      if ExitTest(number) {
        break;
      }
      number := number + 1;
    }
    exitNumber := number;
    result := 5;
  }
}

=== FILE: ints.dfy ===
/** Fixed-width integer types of the modelled program, and its checked
    (debug-build) arithmetic: an operation whose mathematical result does not
    fit the width panics, which is modelled as `None`. */
module Ints {
  import opened Results

  const U8_LIMIT: int := 0x100
  const U16_LIMIT: int := 0x1_0000
  const U32_LIMIT: int := 0x1_0000_0000
  const I32_MIN: int := -0x8000_0000
  const I32_LIMIT: int := 0x8000_0000
  const U128_LIMIT: int := 0x1_0000_0000_0000_0000_0000_0000_0000_0000

  type U8 = x: int | 0 <= x < U8_LIMIT
  type U16 = x: int | 0 <= x < U16_LIMIT
  type U32 = x: int | 0 <= x < U32_LIMIT
  type I32 = x: int | I32_MIN <= x < I32_LIMIT
  type U128 = x: int | 0 <= x < U128_LIMIT

  predicate InI32(x: int) {
    I32_MIN <= x < I32_LIMIT
  }

  /** `a + b` on `i32`: panics when the sum leaves the `i32` range. */
  function AddI32(a: I32, b: I32): (r: Option<I32>)
    ensures r.Some? <==> InI32(a + b)
    ensures r.Some? ==> r.value == a + b
  {
    if InI32(a + b) then Some(a + b) else None
  }

  /** `a * b` on `i32`: panics when the product leaves the `i32` range. */
  function MulI32(a: I32, b: I32): (r: Option<I32>)
    ensures r.Some? <==> InI32(a * b)
    ensures r.Some? ==> r.value == a * b
  {
    if InI32(a * b) then Some(a * b) else None
  }

  /** `x += 1` on `u32`: panics at `u32::MAX`. */
  function IncU32(x: U32): (r: Option<U32>)
    ensures r.Some? <==> x < U32_LIMIT - 1
    ensures r.Some? ==> r.value == x + 1
  {
    if x + 1 < U32_LIMIT then Some(x + 1) else None
  }

  /** `x += 1` on `i32`: panics at `i32::MAX`. */
  function IncI32(x: I32): (r: Option<I32>)
    ensures r.Some? <==> x < I32_LIMIT - 1
    ensures r.Some? ==> r.value == x + 1
  {
    if x + 1 < I32_LIMIT then Some(x + 1) else None
  }
}

=== FILE: iterator.dfy ===
/** The adaptor pipeline of the iterator exercise:
    `v.into_iter().map(|x| x * 3).filter(|y| *y & 2 == 0).collect()` on
    `i32`. Rust's `&` binds tighter than `==`, so the filter tests bit 1 of
    the two's-complement value, which is not a parity test. */
module IteratorPipeline {
  import opened Ints
  import opened Results
  import opened Seqs

  /** The map closure `|x| x * 3`; `None` is the overflow panic. */
  function Triple(x: I32): Option<I32> {
    MulI32(x, 3)
  }

  /** The filter closure `|y| *y & 2 == 0`. In two's complement the low two
      bits of `y` are `y` modulo 4 (Dafny's `%` is Euclidean, never
      negative), and bit 1 is clear exactly when that remainder is below 2. */
  predicate BitOneClear(y: I32) {
    y % 4 < 2
  }

  /** On one byte, bit 1 is clear exactly when the value modulo 4 is below 2. */
  lemma ByteBitOne(b: bv8)
    ensures (b & 2 == 0) <==> (b as int) % 4 < 2
  {
  }

  lemma LowByteModFour(y: int)
    ensures (y % 256) % 4 == y % 4
  {
    var q := y / 256;
    var r := y % 256;
    assert y == 4 * (64 * q) + r;
  }

  /** The arithmetic form of the filter agrees with the bitwise one: bit 1
      of `y` lies in its low byte, the byte whose value is `y` modulo 256 in
      two's complement. */
  lemma BitOneClearIsBitTest(y: I32, lowByte: bv8)
    requires lowByte as int == y % 256
    ensures BitOneClear(y) <==> lowByte & 2 == 0
  {
    ByteBitOne(lowByte);
    LowByteModFour(y);
  }

  /** The filter is not a parity test: an even value can be dropped and an
      odd one kept. */
  lemma BitOneClearIsNotEvenness()
    ensures 18 % 2 == 0 && !BitOneClear(18)
    ensures 21 % 2 == 1 && BitOneClear(21)
  {
  }

  /** The whole pipeline; `None` if some product overflows `i32`. */
  function Pipeline(v: seq<I32>): (r: Option<seq<I32>>)
    ensures r.None? <==> exists i :: 0 <= i < |v| && !InI32(v[i] as int * 3)
    ensures r.Some? ==> forall i :: 0 <= i < |r.value| ==> r.value[i] % 3 == 0 && BitOneClear(r.value[i])
    ensures r.Some? ==> |r.value| <= |v|
  {
    match TryMap(v, Triple)
    case None => None
    case Some(tripled) =>
      var kept := Filter(tripled, BitOneClear);
      FilterKeeps(tripled, BitOneClear);
      assert forall x :: x in tripled ==> x % 3 == 0;
      assert forall i :: 0 <= i < |kept| ==> kept[i] in kept;
      Some(kept)
  }

  /** The inputs multiplied by three, when no product overflows. */
  function Tripled(v: seq<I32>): (t: seq<I32>)
    requires forall i :: 0 <= i < |v| ==> InI32(v[i] as int * 3)
    ensures |t| == |v|
  {
    seq(|v|, i requires 0 <= i < |v| && InI32(v[i] as int * 3) => v[i] * 3)
  }

  /** The kept values are exactly the tripled inputs with bit 1 clear, in
      their original order, each as often as it occurs among them. */
  lemma PipelineKeepsExactly(v: seq<I32>)
    requires Pipeline(v).Some?
    ensures forall i :: 0 <= i < |v| ==> InI32(v[i] as int * 3)
    ensures var kept := Pipeline(v).value;
      && IsSubsequence(kept, Tripled(v))
      && (forall i :: 0 <= i < |kept| ==> kept[i] in Tripled(v) && kept[i] % 4 < 2)
      && (forall i :: 0 <= i < |v| && Tripled(v)[i] % 4 < 2 ==> Tripled(v)[i] in kept)
      && (forall x :: multiset(kept)[x] == if x % 4 < 2 then multiset(Tripled(v))[x] else 0)
      && |kept| == CountIf(Tripled(v), BitOneClear)
  {
    PipelineIsFilter(v);
    FilterSpec(Tripled(v), BitOneClear);
  }

  /** A pipeline that does not panic filters the tripled inputs. */
  lemma PipelineIsFilter(v: seq<I32>)
    requires Pipeline(v).Some?
    ensures forall i :: 0 <= i < |v| ==> InI32(v[i] as int * 3)
    ensures Pipeline(v).value == Filter(Tripled(v), BitOneClear)
  {
    assert TryMap(v, Triple).value == Tripled(v);
  }

  /** `vec![6, 7, 8]` becomes `[21, 24]`: 18 has bit 1 set and is dropped. */
  lemma PipelineExample()
    ensures Pipeline([6, 7, 8]) == Some([21, 24])
  {
    var v: seq<I32> := [6, 7, 8];
    assert Triple(v[0]) == Some(18) && Triple(v[1]) == Some(21) && Triple(v[2]) == Some(24);
    assert TryMap(v, Triple).Some?;
    var tripled := TryMap(v, Triple).value;
    assert tripled == [18, 21, 24];
    var rest: seq<I32> := [21, 24];
    var last: seq<I32> := [24];
    assert tripled[1..] == rest && rest[1..] == last && last[1..] == [];
    assert Filter(last, BitOneClear) == [24];
    assert Filter(rest, BitOneClear) == [21, 24];
    assert Filter(tripled, BitOneClear) == [21, 24];
    assert Pipeline(v) == Some(Filter(tripled, BitOneClear));
  }
}

=== FILE: practice.dfy ===
/** The `Cake` and `Party` practice of the derivable-traits exercise: a
    party's default, an equality that looks only at the cake, and the
    conversion from a party to its cake. */
module Practice {
  import opened Ints

  /** `#[derive(PartialEq)]` on a field-less enum: equal iff same variant. */
  datatype Cake = Chocolate | MapleBacon | Spice

  datatype Party = Party(atRestaurant: bool, numPeople: U8, cake: Cake)

  /** `impl Default for Party`. */
  function Default(): (p: Party)
    ensures p.atRestaurant && p.numPeople == 8 && p.cake == Chocolate
  {
    Party(true, 8, Chocolate)
  }

  /** `impl PartialEq for Party`: parties with the same cake are equal. */
  predicate PartyEq(a: Party, b: Party) {
    a.cake == b.cake
  }

  /** Equality ignores where the party is and how many attend: changing
      those never changes the verdict. */
  lemma PartyEqIgnoresVenue(a: Party, b: Party, atRestaurant: bool, numPeople: U8)
    ensures PartyEq(a, b) <==> PartyEq(a.(atRestaurant := atRestaurant, numPeople := numPeople), b)
  {
  }

  /** Party equality is an equivalence relation. */
  lemma PartyEqIsEquivalence(a: Party, b: Party, c: Party)
    ensures PartyEq(a, a)
    ensures PartyEq(a, b) ==> PartyEq(b, a)
    ensures PartyEq(a, b) && PartyEq(b, c) ==> PartyEq(a, c)
  {
  }

  /** `impl From<&Party> for Cake`: the cake identifies the party up to
      party equality. */
  function IntoCake(p: Party): (c: Cake)
    ensures forall q: Party :: PartyEq(p, q) <==> q.cake == c
  {
    p.cake
  }

  /** Parties are equal exactly when they convert to the same cake. */
  lemma PartyEqIffSameCake(a: Party, b: Party)
    ensures PartyEq(a, b) <==> IntoCake(a) == IntoCake(b)
  {
  }

  /** `Party { cake: c, ..Default::default() }`. */
  function WithCake(c: Cake): (p: Party)
    ensures p.atRestaurant == Default().atRestaurant
    ensures p.numPeople == Default().numPeople
    ensures p.cake == c
  {
    Default().(cake := c)
  }

  /** The maple-bacon party of `main` keeps the default venue and head
      count, and equals a party elsewhere with 235 people and the same cake. */
  lemma MapleBaconParty()
    ensures WithCake(MapleBacon) == Party(true, 8, MapleBacon)
    ensures PartyEq(WithCake(MapleBacon), Party(false, 235, MapleBacon))
    ensures !PartyEq(WithCake(MapleBacon), Default())
  {
  }
}

=== FILE: puzzles.dfy ===
/** The puzzles library: a default puzzle of `PUZZLE_PIECES` pieces, a
    constructor returning it, a loader that always fails, and the error
    enum with its display messages. */
module Puzzles {
  import opened Ints
  import opened Results
  import opened Text

  const PUZZLE_PIECES: U32 := 42

  datatype Puzzle = Puzzle(numPieces: U32, name: string)

  /** `#[non_exhaustive]` error enum; `WontFit` carries a piece number. */
  datatype PuzzleError = MissingPiece | WontFit(piece: U16)

  /** `impl Default for Puzzle`. */
  function Default(): (p: Puzzle)
    ensures p.numPieces == PUZZLE_PIECES == 42
    ensures p.name == "Default"
  {
    Puzzle(PUZZLE_PIECES, "Default")
  }

  /** `Puzzle::new`: the default puzzle (the log line is left out). */
  function New(): (p: Puzzle)
    ensures p == Default()
  {
    Default()
  }

  /** `Puzzle::from_file`: the file handle is ignored and loading always
      reports a missing piece (the log line is left out). */
  function FromFile<File>(fh: File): (r: Result<Puzzle, PuzzleError>)
    ensures r == Err(MissingPiece)
  {
    Err(MissingPiece)
  }

  /** The `Display` text `thiserror` derives from the `#[error]` strings. */
  function Message(e: PuzzleError): (m: string)
    ensures e.MissingPiece? ==> m == "Missing a piece"
    ensures e.WontFit? ==> m == "Piece " + NatToString(e.piece) + " doesn't fit!"
  {
    match e
    case MissingPiece => "Missing a piece"
    case WontFit(n) => "Piece " + NatToString(n) + " doesn't fit!"
  }

  /** Distinct errors display distinctly: the message identifies the error,
      including the piece number. */
  lemma MessageInjective(a: PuzzleError, b: PuzzleError)
    ensures Message(a) == Message(b) <==> a == b
  {
    if Message(a) == Message(b) {
      if a.WontFit? && b.WontFit? {
        CancelAffixes("Piece ", NatToString(a.piece), NatToString(b.piece), " doesn't fit!");
        NatToStringInjective(a.piece, b.piece);
      }
    }
  }

  /** The message for a concrete piece number. */
  lemma WontFitExample()
    ensures Message(WontFit(7)) == "Piece 7 doesn't fit!"
    ensures Message(MissingPiece) != Message(WontFit(7))
  {
  }
}

=== FILE: results.dfy ===
/** The two failure-carrying wrappers the model uses: `Option` for an
    operation that may panic or find nothing, `Result` for Rust's
    `Result<T, E>`. */
module Results {

  datatype Option<+T> = None | Some(value: T)

  datatype Result<+T, +E> = Ok(value: T) | Err(error: E)
}

=== FILE: road_race.dfy ===
/** The road-race game's per-frame logic, reduced to its integer state: a
    health counter lowered by collisions with either player car, the health
    text, the game-over text, and each player's steering direction. Road and
    obstacle movement, positions, rotations and audio are floating-point or
    engine work and are not modelled; key presses arrive as booleans and
    collision events as a sequence. */
module RoadRace {
  import opened Ints
  import opened Text
  import opened Engine
  import Seqs

  datatype GameState = GameState(healthAmount: U8, lost: bool)

  /** The engine-owned records the callback writes: the health text, whether
      the "Game Over" text has been added, and the pending collision events. */
  datatype Scene = Scene(healthMessage: string, gameOverShown: bool, collisionEvents: seq<CollisionEvent>)

  datatype World = World(game: GameState, scene: Scene)

  /** The keys held down this frame, and the frame's collision events. */
  datatype Frame = Frame(keyUp: bool, keyDown: bool, keyW: bool, keyS: bool, collisions: seq<CollisionEvent>)

  function HealthText(health: nat): string {
    "Health: " + NatToString(health)
  }

  /** `impl Default for GameState`. */
  function DefaultState(): (g: GameState)
    ensures g.healthAmount == 3 && !g.lost
  {
    GameState(3, false)
  }

  /** The state the first frame sees: `main` adds the "Health: 3" text. */
  function Initial(): (w: World)
    ensures w.game == DefaultState()
    ensures w.scene.healthMessage == "Health: 3"
    ensures !w.scene.gameOverShown
  {
    World(DefaultState(), Scene("Health: 3", false, []))
  }

  /** Steering: +1 for the up key plus -1 for the down key. */
  function Direction(upKey: bool, downKey: bool): (d: int)
    ensures -1 <= d <= 1
    ensures d == 1 <==> upKey && !downKey
    ensures d == -1 <==> downKey && !upKey
  {
    var d := 0;
    var d := if upKey then d + 1 else d;
    if downKey then d - 1 else d
  }

  /** Player one steers with Up/Down, player two with W/S. */
  function Directions(f: Frame): (dirs: (int, int))
    ensures dirs.0 == Direction(f.keyUp, f.keyDown) && dirs.1 == Direction(f.keyW, f.keyS)
  {
    (Direction(f.keyUp, f.keyDown), Direction(f.keyW, f.keyS))
  }

  /** Pressing both keys of a player cancels out. */
  lemma BothKeysCancel(f: Frame)
    requires f.keyUp && f.keyDown
    ensures Directions(f).0 == 0
  {
  }

  /** A collision costs health when it is not an End and a player car is
      involved; every other event is skipped with `continue`. */
  predicate Hurts(e: CollisionEvent) {
    && e.state != End
    && (EitherContains(e.pair, "player1") || EitherContains(e.pair, "player2"))
  }

  /** One iteration of the collision loop: a hurting event lowers positive
      health by one and updates the text; health never goes below zero. */
  function OnCollision(w: World, e: CollisionEvent): (r: World)
    ensures !Hurts(e) ==> r == w
    ensures Hurts(e) && w.game.healthAmount > 0 ==>
      && r.game.healthAmount == w.game.healthAmount - 1
      && r.scene.healthMessage == HealthText(r.game.healthAmount)
    ensures w.game.healthAmount == 0 ==> r == w
    ensures r.game.lost == w.game.lost
    ensures r.scene.collisionEvents == w.scene.collisionEvents
    ensures r.scene.gameOverShown == w.scene.gameOverShown
  {
    if !Hurts(e) then w
    else if w.game.healthAmount > 0 then
      var health := w.game.healthAmount - 1;
      World(w.game.(healthAmount := health), w.scene.(healthMessage := HealthText(health)))
    else w
  }

  /** The drained collision events, in order. */
  function HandleCollisions(w: World, events: seq<CollisionEvent>): World
    decreases |events|
  {
    if |events| == 0 then w else HandleCollisions(OnCollision(w, events[0]), events[1..])
  }

  function Max(a: int, b: int): int {
    if a >= b then a else b
  }

  /** After the events, health has dropped by the number of hurting events
      but not below zero; `lost` and everything but the health text are
      untouched. */
  lemma {:induction false} HealthAfterEvents(w: World, events: seq<CollisionEvent>)
    ensures HandleCollisions(w, events).game.healthAmount
      == Max(w.game.healthAmount - Seqs.CountIf(events, Hurts), 0)
    ensures HandleCollisions(w, events).game.lost == w.game.lost
    ensures HandleCollisions(w, events).scene.collisionEvents == w.scene.collisionEvents
    ensures HandleCollisions(w, events).scene.gameOverShown == w.scene.gameOverShown
    decreases |events|
  {
    if |events| > 0 {
      HealthAfterEvents(OnCollision(w, events[0]), events[1..]);
      Seqs.FilterCount(events, Hurts);
      Seqs.FilterCount(events[1..], Hurts);
    }
  }

  /** Health never increases over a batch of events. */
  lemma HealthNeverIncreases(w: World, events: seq<CollisionEvent>)
    ensures HandleCollisions(w, events).game.healthAmount <= w.game.healthAmount
  {
    HealthAfterEvents(w, events);
  }

  /** The health text shows the health counter. */
  ghost predicate TextInSync(w: World) {
    w.scene.healthMessage == HealthText(w.game.healthAmount)
  }

  lemma {:induction false} HandleCollisionsKeepsText(w: World, events: seq<CollisionEvent>)
    requires TextInSync(w)
    ensures TextInSync(HandleCollisions(w, events))
    decreases |events|
  {
    if |events| > 0 {
      HandleCollisionsKeepsText(OnCollision(w, events[0]), events[1..]);
    }
  }

  /** `game_logic`: the game-over text when health is already zero, then the
      drained collision events. Steering only moves and turns sprites. */
  function FrameStep(w: World): (r: World)
    ensures r.scene.collisionEvents == []
    ensures r.scene.gameOverShown == (w.scene.gameOverShown || w.game.healthAmount == 0)
  {
    var scene := w.scene.(
      gameOverShown := w.scene.gameOverShown || w.game.healthAmount == 0,
      collisionEvents := []);
    HealthAfterEvents(w.(scene := scene), w.scene.collisionEvents);
    HandleCollisions(w.(scene := scene), w.scene.collisionEvents)
  }

  /** A frame keeps `lost`, never raises health, and keeps the text in step. */
  lemma FrameStepKeeps(w: World)
    requires TextInSync(w)
    ensures FrameStep(w).game.lost == w.game.lost
    ensures FrameStep(w).game.healthAmount <= w.game.healthAmount
    ensures TextInSync(FrameStep(w))
  {
    var scene := w.scene.(gameOverShown := w.scene.gameOverShown || w.game.healthAmount == 0, collisionEvents := []);
    HealthAfterEvents(w.(scene := scene), w.scene.collisionEvents);
    HandleCollisionsKeepsText(w.(scene := scene), w.scene.collisionEvents);
  }

  /** The engine hands the frame's collision events to the callback. */
  function Deliver(w: World, f: Frame): World {
    w.(scene := w.scene.(collisionEvents := f.collisions))
  }

  function Run(w: World, frames: seq<Frame>): World
    decreases |frames|
  {
    if |frames| == 0 then w else Run(FrameStep(Deliver(w, frames[0])), frames[1..])
  }

  /** Nothing ever sets `lost`, health only goes down, and the health text
      keeps showing it. */
  lemma {:induction false} RunKeepsLostAndText(w: World, frames: seq<Frame>)
    requires TextInSync(w)
    ensures Run(w, frames).game.lost == w.game.lost
    ensures Run(w, frames).game.healthAmount <= w.game.healthAmount
    ensures TextInSync(Run(w, frames))
    decreases |frames|
  {
    if |frames| > 0 {
      var d := Deliver(w, frames[0]);
      FrameStepKeeps(d);
      RunKeepsLostAndText(FrameStep(d), frames[1..]);
    }
  }

  /** From the start of the game, `lost` stays false forever. */
  lemma NeverLost(frames: seq<Frame>)
    ensures !Run(Initial(), frames).game.lost
    ensures TextInSync(Run(Initial(), frames))
  {
    assert NatToString(3) == "3";
    RunKeepsLostAndText(Initial(), frames);
  }
}

=== FILE: seqs.dfy ===
/** Iterator adaptors over finite sequences: `map`, `filter`, and a `map`
    whose closure may panic (the whole pipeline then panics). */
module Seqs {
  import opened Results

  /** `r` can be obtained from `s` by deleting elements, keeping order. */
  ghost predicate IsSubsequence<T>(r: seq<T>, s: seq<T>)
    decreases |s|
  {
    || |r| == 0
    || (&& |s| > 0
        && if r[0] == s[0] then IsSubsequence(r[1..], s[1..]) else IsSubsequence(r, s[1..]))
  }

  /** `iter().map(f).collect()`. */
  function Map<T, U>(s: seq<T>, f: T -> U): (r: seq<U>)
    ensures |r| == |s|
    ensures forall i :: 0 <= i < |s| ==> r[i] == f(s[i])
  {
    seq(|s|, i requires 0 <= i < |s| => f(s[i]))
  }

  /** Mapping a concatenation maps each part. */
  lemma MapAppend<T, U>(a: seq<T>, b: seq<T>, f: T -> U)
    ensures Map(a + b, f) == Map(a, f) + Map(b, f)
  {
  }

  /** `iter().filter(p).collect()`: the elements satisfying `p`, in order.
      What it keeps is stated by `FilterSpec`. */
  function Filter<T>(s: seq<T>, p: T -> bool): (r: seq<T>)
    ensures |r| <= |s|
    decreases |s|
  {
    if |s| == 0 then []
    else if p(s[0]) then [s[0]] + Filter(s[1..], p)
    else Filter(s[1..], p)
  }

  /** The number of positions of `s` whose element satisfies `p`. */
  ghost function CountIf<T>(s: seq<T>, p: T -> bool): nat {
    |set i | 0 <= i < |s| && p(s[i])|
  }

  /** Every element `filter` keeps comes from the input and satisfies the
      predicate: the part of `FilterSpec` most callers need. */
  lemma FilterKeeps<T>(s: seq<T>, p: T -> bool)
    ensures forall x :: x in Filter(s, p) ==> x in s && p(x)
  {
    FilterSpec(s, p);
  }

  /** `Filter` keeps exactly the elements satisfying `p`, in their order:
      each as often as it occurs in `s`, and one per satisfying position. */
  lemma FilterSpec<T>(s: seq<T>, p: T -> bool)
    ensures forall i :: 0 <= i < |Filter(s, p)| ==> Filter(s, p)[i] in s && p(Filter(s, p)[i])
    ensures forall i :: 0 <= i < |s| && p(s[i]) ==> s[i] in Filter(s, p)
    ensures IsSubsequence(Filter(s, p), s)
    ensures forall x :: multiset(Filter(s, p))[x] == if p(x) then multiset(s)[x] else 0
    ensures |Filter(s, p)| == CountIf(s, p)
  {
    FilterMembers(s, p);
    FilterMultiset(s, p);
    FilterCount(s, p);
  }

  /** What `Filter` keeps, as a set of values and as a subsequence. */
  lemma {:induction false} FilterMembers<T>(s: seq<T>, p: T -> bool)
    ensures forall i :: 0 <= i < |Filter(s, p)| ==> Filter(s, p)[i] in s && p(Filter(s, p)[i])
    ensures forall i :: 0 <= i < |s| && p(s[i]) ==> s[i] in Filter(s, p)
    ensures IsSubsequence(Filter(s, p), s)
    decreases |s|
  {
    if |s| > 0 {
      FilterMembers(s[1..], p);
      var r := Filter(s, p);
      var rest := Filter(s[1..], p);
      forall i | 0 <= i < |r|
        ensures r[i] in s && p(r[i])
      {
        if p(s[0]) && i == 0 {
        } else if p(s[0]) {
          assert r[i] == rest[i - 1];
          assert r[i] in s[1..];
        } else {
          assert r[i] in s[1..];
        }
      }
      forall i | 0 <= i < |s| && p(s[i])
        ensures s[i] in r
      {
        if i > 0 {
          assert s[i] == s[1..][i - 1];
        }
      }
    }
  }

  /** `Filter` keeps each satisfying value as often as it occurs. */
  lemma {:induction false} FilterMultiset<T>(s: seq<T>, p: T -> bool)
    ensures forall x :: multiset(Filter(s, p))[x] == if p(x) then multiset(s)[x] else 0
    decreases |s|
  {
    if |s| > 0 {
      FilterMultiset(s[1..], p);
      assert s == [s[0]] + s[1..];
      assert multiset(s) == multiset{s[0]} + multiset(s[1..]);
      if p(s[0]) {
        assert multiset(Filter(s, p)) == multiset{s[0]} + multiset(Filter(s[1..], p));
      }
    }
  }

  /** Filtering a concatenation filters each part. */
  lemma {:induction false} FilterAppend<T>(a: seq<T>, b: seq<T>, p: T -> bool)
    ensures Filter(a + b, p) == Filter(a, p) + Filter(b, p)
    decreases |a|
  {
    if |a| > 0 {
      assert (a + b)[1..] == a[1..] + b;
      FilterAppend(a[1..], b, p);
    } else {
      assert a + b == b;
    }
  }

  /** The kept elements are as many as the satisfying positions. */
  lemma {:induction false} FilterCount<T>(s: seq<T>, p: T -> bool)
    ensures |Filter(s, p)| == CountIf(s, p)
    decreases |s|
  {
    if |s| > 0 {
      var init := s[..|s| - 1];
      var x := s[|s| - 1];
      assert s == init + [x];
      FilterCount(init, p);
      FilterAppend(init, [x], p);
      assert [x][1..] == [];
      var before := set i | 0 <= i < |init| && p(init[i]);
      var after := set i | 0 <= i < |s| && p(s[i]);
      if p(x) {
        assert after == before + {|init|};
      } else {
        assert after == before;
      }
    }
  }

  /** One step of `Filter` on a sequence with a known head. */
  lemma FilterStep<T>(x: T, rest: seq<T>, p: T -> bool)
    ensures Filter([x] + rest, p) == (if p(x) then [x] else []) + Filter(rest, p)
  {
    assert ([x] + rest)[1..] == rest;
  }

  /** `iter().map(f).collect()` where `f` may panic: `None` as soon as any
      element's image is `None`, otherwise every image in order. */
  function TryMap<T, U>(s: seq<T>, f: T -> Option<U>): (r: Option<seq<U>>)
    ensures r.None? <==> exists i :: 0 <= i < |s| && f(s[i]).None?
    ensures r.Some? ==> |r.value| == |s| && forall i :: 0 <= i < |s| ==> f(s[i]) == Some(r.value[i])
    decreases |s|
  {
    if |s| == 0 then Some([])
    else match f(s[0])
      case None => None
      case Some(y) =>
        match TryMap(s[1..], f)
        case None => None
        case Some(ys) => Some([y] + ys)
  }
}

=== FILE: snuggle.dfy ===
/** `snuggle` from the tests exercise: eight bunnies per bunny, in `u128`
    arithmetic, which panics on overflow in a debug build. */
module Snuggle {
  import opened Ints
  import opened Results

  /** The largest bunny count whose snuggle still fits in `u128` is just
      below 2^125, since 8 = 2^3. */
  const SNUGGLE_LIMIT: int := 0x2000_0000_0000_0000_0000_0000_0000_0000

  /** `bunnies * 8` on `u128`; `None` is the overflow panic. */
  function Snuggle(bunnies: U128): (r: Option<U128>)
    ensures r.None? <==> bunnies >= SNUGGLE_LIMIT
    ensures r.Some? ==> r.value % 8 == 0 && r.value / 8 == bunnies
  {
    if bunnies * 8 < U128_LIMIT then Some(bunnies * 8) else None
  }

  /** More bunnies never snuggle into fewer. */
  lemma SnuggleMonotone(a: U128, b: U128)
    requires a <= b
    requires Snuggle(b).Some?
    ensures Snuggle(a).Some? && Snuggle(a).value <= Snuggle(b).value
  {
  }

  /** The documentation example: `snuggle(5) == 40`. */
  lemma SnuggleDocTest()
    ensures Snuggle(5) == Some(40)
  {
  }

  /** The unit test `snuggle_bunnies_multiply`: `snuggle(2) == 16`. */
  lemma SnuggleUnitTest()
    ensures Snuggle(2) == Some(16)
  {
  }
}

=== FILE: text.dfy ===
/** String operations the exercises rely on: substring and prefix tests,
    ASCII case mapping, UTF-8 byte length, and decimal formatting of
    integers (Rust's `{}` on an integer). */
module Text {

  /** Rust's `str::starts_with` with a string pattern. */
  predicate StartsWith(s: string, prefix: string) {
    |prefix| <= |s| && s[..|prefix|] == prefix
  }

  /** Rust's `str::contains` with a string pattern: `needle` occurs in `s`
      as a contiguous run. The empty pattern occurs in every string. */
  predicate Contains(s: string, needle: string) {
    exists i | 0 <= i <= |s| - |needle| :: OccursAt(s, needle, i)
  }

  /** `needle` occurs in `s` starting at index `i`. */
  predicate OccursAt(s: string, needle: string, i: int) {
    0 <= i && i + |needle| <= |s| && s[i..i + |needle|] == needle
  }

  /** Witness form of `Contains`, for showing that a pattern occurs. */
  lemma ContainsAt(s: string, needle: string, i: nat)
    requires i + |needle| <= |s|
    requires forall k :: 0 <= k < |needle| ==> s[i + k] == needle[k]
    ensures Contains(s, needle)
  {
    assert s[i..i + |needle|] == needle;
    assert OccursAt(s, needle, i);
  }

  /** A pattern holding a character the string lacks cannot occur in it. */
  lemma AbsentCharNotContained(s: string, needle: string, c: char)
    requires c in needle
    requires c !in s
    ensures !Contains(s, needle)
  {
    forall i | 0 <= i <= |s| - |needle|
      ensures !OccursAt(s, needle, i)
    {
      var k :| 0 <= k < |needle| && needle[k] == c;
      assert s[i..i + |needle|][k] == s[i + k];
    }
  }

  // ---------------------------------------------------------------------
  // ASCII case mapping (`to_lowercase` / `to_uppercase` restricted to ASCII)

  predicate IsUpper(c: char) {
    'A' <= c <= 'Z'
  }

  predicate IsLower(c: char) {
    'a' <= c <= 'z'
  }

  function LowerChar(c: char): char {
    if IsUpper(c) then (c as int + 32) as char else c
  }

  function UpperChar(c: char): char {
    if IsLower(c) then (c as int - 32) as char else c
  }

  function ToLower(s: string): (r: string)
    ensures |r| == |s|
    ensures forall i :: 0 <= i < |s| ==> r[i] == LowerChar(s[i])
  {
    seq(|s|, i requires 0 <= i < |s| => LowerChar(s[i]))
  }

  function ToUpper(s: string): (r: string)
    ensures |r| == |s|
    ensures forall i :: 0 <= i < |s| ==> r[i] == UpperChar(s[i])
  {
    seq(|s|, i requires 0 <= i < |s| => UpperChar(s[i]))
  }

  /** Two characters are the same letter up to case: equal, or an ASCII
      capital and its small letter in either order. */
  predicate SameIgnoringCase(c: char, d: char) {
    || c == d
    || (IsUpper(c) && d as int == c as int + 32)
    || (IsUpper(d) && c as int == d as int + 32)
  }

  /** Two strings are equal up to ASCII letter case, position by position. */
  predicate EqualIgnoringCase(a: string, b: string) {
    |a| == |b| && forall i :: 0 <= i < |a| ==> SameIgnoringCase(a[i], b[i])
  }

  lemma LowerCharEqual(c: char, d: char)
    ensures LowerChar(c) == LowerChar(d) <==> SameIgnoringCase(c, d)
  {
  }

  /** Comparing lower-cased strings is exactly comparing up to letter case. */
  lemma LowerEqualIff(a: string, b: string)
    ensures ToLower(a) == ToLower(b) <==> EqualIgnoringCase(a, b)
  {
    if ToLower(a) == ToLower(b) {
      forall i | 0 <= i < |a|
        ensures SameIgnoringCase(a[i], b[i])
      {
        assert ToLower(a)[i] == ToLower(b)[i];
        LowerCharEqual(a[i], b[i]);
      }
    }
    if EqualIgnoringCase(a, b) {
      forall i | 0 <= i < |a|
        ensures ToLower(a)[i] == ToLower(b)[i]
      {
        LowerCharEqual(a[i], b[i]);
      }
    }
  }

  // ---------------------------------------------------------------------
  // UTF-8 byte length (Rust's `str::len`)

  /** Number of bytes UTF-8 spends on one Unicode scalar value. */
  function Utf8Width(c: char): (w: nat)
    ensures 1 <= w <= 4
    ensures w == 1 <==> c as int < 0x80
  {
    if c as int < 0x80 then 1
    else if c as int < 0x800 then 2
    else if c as int < 0x1_0000 then 3
    else 4
  }

  function ByteLen(s: string): nat {
    if |s| == 0 then 0 else Utf8Width(s[0]) + ByteLen(s[1..])
  }

  predicate IsAscii(s: string) {
    forall i :: 0 <= i < |s| ==> s[i] as int < 0x80
  }

  /** A string has at least one and at most four bytes per character, and
      exactly one per character when it is ASCII. */
  lemma {:induction false} ByteLenBounds(s: string)
    ensures |s| <= ByteLen(s) <= 4 * |s|
    ensures ByteLen(s) == |s| <==> IsAscii(s)
  {
    if |s| > 0 {
      ByteLenBounds(s[1..]);
      if IsAscii(s) {
        assert IsAscii(s[1..]) by {
          forall i | 0 <= i < |s[1..]| ensures s[1..][i] as int < 0x80 {
            assert s[1..][i] == s[i + 1];
          }
        }
      }
      if ByteLen(s) == |s| {
        assert Utf8Width(s[0]) == 1;
        assert ByteLen(s[1..]) == |s[1..]|;
        forall i | 0 <= i < |s| ensures s[i] as int < 0x80 {
          if i > 0 {
            assert s[i] == s[1..][i - 1];
          }
        }
      }
    }
  }

  // ---------------------------------------------------------------------
  // Decimal formatting (`format!("{}", n)` on an integer)

  predicate IsDigit(c: char) {
    '0' <= c <= '9'
  }

  function DigitChar(d: nat): (c: char)
    requires d < 10
    ensures IsDigit(c)
  {
    ('0' as int + d) as char
  }

  function DigitValue(c: char): (d: nat)
    requires IsDigit(c)
    ensures d < 10 && DigitChar(d) == c
  {
    c as int - '0' as int
  }

  predicate AllDigits(s: string) {
    forall i :: 0 <= i < |s| ==> IsDigit(s[i])
  }

  /** Decimal digits of `n`, most significant first, without leading zeros. */
  function NatToString(n: nat): (s: string)
    ensures |s| >= 1
    ensures AllDigits(s)
    decreases n
  {
    if n < 10 then [DigitChar(n)] else NatToString(n / 10) + [DigitChar(n % 10)]
  }

  /** The value a string of decimal digits denotes (the parsing direction). */
  function DigitsValue(s: string): nat
    requires AllDigits(s)
    decreases |s|
  {
    if |s| == 0 then 0 else DigitsValue(s[..|s| - 1]) * 10 + DigitValue(s[|s| - 1])
  }

  /** Reading back a formatted natural number gives the number. */
  lemma {:induction false} DecimalRoundTrip(n: nat)
    ensures DigitsValue(NatToString(n)) == n
    decreases n
  {
    var s := NatToString(n);
    if n < 10 {
      assert s[..0] == [];
    } else {
      DecimalRoundTrip(n / 10);
      assert s[..|s| - 1] == NatToString(n / 10);
      assert DigitValue(s[|s| - 1]) == n % 10;
    }
  }

  /** Distinct numbers format to distinct strings. */
  lemma NatToStringInjective(a: nat, b: nat)
    ensures NatToString(a) == NatToString(b) <==> a == b
  {
    if NatToString(a) == NatToString(b) {
      DecimalRoundTrip(a);
      DecimalRoundTrip(b);
    }
  }

  /** Rust's `{}` on a signed integer: a minus sign before the magnitude. */
  function IntToString(i: int): (s: string)
    ensures |s| >= 1
    ensures i >= 0 ==> s == NatToString(i)
  {
    if i < 0 then "-" + NatToString(-i) else NatToString(i)
  }

  /** Distinct integers format to distinct strings. */
  lemma IntToStringInjective(a: int, b: int)
    ensures IntToString(a) == IntToString(b) <==> a == b
  {
    assert IsDigit(IntToString(a)[0]) <==> a >= 0;
    assert IsDigit(IntToString(b)[0]) <==> b >= 0;
    if IntToString(a) == IntToString(b) {
      if a < 0 && b < 0 {
        assert NatToString(-a) == IntToString(a)[1..];
        assert NatToString(-b) == IntToString(b)[1..];
        NatToStringInjective(-a, -b);
      } else if a >= 0 && b >= 0 {
        NatToStringInjective(a, b);
      }
    }
  }

  /** A common prefix and suffix can be cancelled from equal strings. */
  lemma CancelAffixes(pre: string, x: string, y: string, post: string)
    requires pre + x + post == pre + y + post
    ensures x == y
  {
    var s := pre + x + post;
    assert |x| == |y|;
    assert x == s[|pre|..|pre| + |x|];
    assert y == (pre + y + post)[|pre|..|pre| + |y|];
  }
}

=== FILE: tutorial.dfy ===
/** The tutorial game's per-frame logic, reduced to its integer and label
    state: a score and high score driven by collisions with the player, a
    counter naming spawned gophers, and a reset key. Positions, rotation,
    audio, the spawn timer's clock and the random spawn location belong to
    the engine and are not modelled; the engine's answers (keys pressed, the
    mouse inside the window, the timer having just finished) arrive as a
    `Frame` of booleans, and its collision events as a sequence. */
module Tutorial {
  import opened Ints
  import opened Results
  import opened Text
  import opened Engine
  import Seqs

  /** The integer part of `GameState`; `spawn_timer` is engine-owned. */
  datatype GameState = GameState(highScore: U32, score: U32, gopherIndex: I32)

  /** The engine-owned records the callback reads and writes: sprite labels,
      the two text values, the pending collision events and the exit flag. */
  datatype Scene = Scene(
    sprites: set<string>,
    scoreText: string,
    highScoreText: string,
    collisionEvents: seq<CollisionEvent>,
    shouldExit: bool)

  datatype World = World(game: GameState, scene: Scene)

  /** The engine's answers for one frame. */
  datatype Frame = Frame(
    collisions: seq<CollisionEvent>,
    quitPressed: bool,
    leftClickInWindow: bool,
    timerFinished: bool,
    resetPressed: bool)

  const PLAYER: string := "player"

  function ScoreText(score: nat): string {
    "Score: " + NatToString(score)
  }

  function HighScoreText(highScore: nat): string {
    "High Score: " + NatToString(highScore)
  }

  /** `format!("gopher{}", gopher_index)`. */
  function GopherLabel(index: int): string {
    "gopher" + IntToString(index)
  }

  /** Different indices give different labels. */
  lemma GopherLabelInjective(i: int, j: int)
    ensures GopherLabel(i) == GopherLabel(j) <==> i == j
  {
    if GopherLabel(i) == GopherLabel(j) {
      CancelAffixes("gopher", IntToString(i), IntToString(j), "");
      IntToStringInjective(i, j);
    }
  }

  lemma GopherLabelIsNotPlayer(i: int)
    ensures GopherLabel(i) != PLAYER
  {
    assert GopherLabel(i)[0] == 'g';
  }

  /** `impl Default for GameState`. */
  function DefaultState(): (g: GameState)
    ensures g.highScore == 0 && g.score == 0 && g.gopherIndex == 0
  {
    GameState(0, 0, 0)
  }

  /** The state the first frame sees: `main` adds the player sprite and the
      two texts, then runs with the default state. */
  function Initial(): (w: World)
    ensures w.game == DefaultState()
    ensures w.scene.sprites == {PLAYER}
    ensures w.scene.scoreText == "Score: 0" && w.scene.highScoreText == "High Score: 0"
  {
    World(DefaultState(), Scene({PLAYER}, "Score: 0", "High Score: 0", [], false))
  }

  /** What every reachable world satisfies: the high score bounds the score,
      both texts show their counters, the player sprite is present, and no
      sprite already carries a gopher label the counter has yet to hand out. */
  ghost predicate Inv(w: World) {
    && w.game.highScore >= w.game.score
    && w.scene.scoreText == ScoreText(w.game.score)
    && w.scene.highScoreText == HighScoreText(w.game.highScore)
    && PLAYER in w.scene.sprites
    && forall k :: k >= w.game.gopherIndex ==> GopherLabel(k) !in w.scene.sprites
  }

  lemma InitialInv()
    ensures Inv(Initial())
  {
    var w := Initial();
    assert NatToString(0) == "0";
    forall k | k >= w.game.gopherIndex
      ensures GopherLabel(k) !in w.scene.sprites
    {
      GopherLabelIsNotPlayer(k);
    }
  }

  /** A collision scores when it begins and one label starts with "player". */
  predicate Scores(e: CollisionEvent) {
    e.state == Begin && OneStartsWith(e.pair, PLAYER)
  }

  /** One iteration of the collision loop. A scoring event removes every
      label of the pair except exactly "player", adds one to the score
      (`None`: the `u32` overflow panic), shows the new score, and raises the
      high score (and its text) when the score passes it. */
  function OnCollision(w: World, e: CollisionEvent): (r: Option<World>)
    ensures !Scores(e) ==> r == Some(w)
    ensures Scores(e) ==> (r.None? <==> w.game.score == U32_LIMIT - 1)
    ensures Scores(e) && r.Some? ==>
      var w' := r.value;
      && w'.game.score == w.game.score + 1
      && w'.game.highScore >= w'.game.score
      && w'.game.highScore >= w.game.highScore
      && (w'.game.highScore == w.game.highScore || w'.game.highScore == w'.game.score)
      && w'.game.gopherIndex == w.game.gopherIndex
      && w'.scene.sprites == w.scene.sprites - (Labels(e.pair) - {PLAYER})
      && w'.scene.scoreText == ScoreText(w'.game.score)
      && (w'.scene.highScoreText != w.scene.highScoreText ==> w'.game.highScore != w.game.highScore)
      && w'.scene.collisionEvents == w.scene.collisionEvents
      && w'.scene.shouldExit == w.scene.shouldExit
  {
    if !Scores(e) then Some(w)
    else
      var sprites := w.scene.sprites;
      var sprites := if e.pair.first != PLAYER then sprites - {e.pair.first} else sprites;
      var sprites := if e.pair.second != PLAYER then sprites - {e.pair.second} else sprites;
      match IncU32(w.game.score)
      case None => None
      case Some(score) =>
        var scene := w.scene.(sprites := sprites, scoreText := ScoreText(score));
        if score > w.game.highScore then
          Some(World(w.game.(score := score, highScore := score), scene.(highScoreText := HighScoreText(score))))
        else
          Some(World(w.game.(score := score), scene))
  }

  lemma OnCollisionPreservesInv(w: World, e: CollisionEvent)
    requires Inv(w)
    requires OnCollision(w, e).Some?
    ensures Inv(OnCollision(w, e).value)
  {
  }

  /** `for event in engine.collision_events.drain(..)`: the events in order;
      `None` as soon as one of them panics. */
  function HandleCollisions(w: World, events: seq<CollisionEvent>): Option<World>
    decreases |events|
  {
    if |events| == 0 then Some(w)
    else match OnCollision(w, events[0])
      case None => None
      case Some(w1) => HandleCollisions(w1, events[1..])
  }

  /** Handling a frame's collisions adds one point per scoring event, keeps
      the invariant, never lowers the high score, and never touches the
      gopher counter. */
  lemma {:induction false} HandleCollisionsSummary(w: World, events: seq<CollisionEvent>)
    requires Inv(w)
    requires HandleCollisions(w, events).Some?
    ensures var w' := HandleCollisions(w, events).value;
      && Inv(w')
      && w'.game.score == w.game.score + Seqs.CountIf(events, Scores)
      && w'.game.highScore >= w.game.highScore
      && w'.game.gopherIndex == w.game.gopherIndex
      && w'.scene.collisionEvents == w.scene.collisionEvents
      && w'.scene.shouldExit == w.scene.shouldExit
    decreases |events|
  {
    if |events| > 0 {
      var w1 := OnCollision(w, events[0]).value;
      OnCollisionPreservesInv(w, events[0]);
      HandleCollisionsSummary(w1, events[1..]);
      Seqs.FilterCount(events, Scores);
      Seqs.FilterCount(events[1..], Scores);
    }
  }

  /** Collision handling, scoring or not, never touches the gopher counter. */
  lemma {:induction false} HandleCollisionsKeepsIndex(w: World, events: seq<CollisionEvent>)
    requires HandleCollisions(w, events).Some?
    ensures HandleCollisions(w, events).value.game.gopherIndex == w.game.gopherIndex
    decreases |events|
  {
    if |events| > 0 {
      HandleCollisionsKeepsIndex(OnCollision(w, events[0]).value, events[1..]);
    }
  }

  /** Spawning a gopher (mouse click or timer): the label uses the current
      index, then the index goes up by one (`None`: the `i32` overflow
      panic, which happens before the sprite is added). */
  function Spawn(w: World): (r: Option<World>)
    ensures r.None? <==> w.game.gopherIndex == I32_LIMIT - 1
    ensures r.Some? ==> r.value.game.gopherIndex == w.game.gopherIndex + 1
    ensures r.Some? ==> r.value.scene.sprites == w.scene.sprites + {GopherLabel(w.game.gopherIndex)}
    ensures r.Some? ==> r.value.game.score == w.game.score && r.value.game.highScore == w.game.highScore
    ensures r.Some? ==> w.scene == r.value.scene.(sprites := w.scene.sprites)
  {
    var newLabel := GopherLabel(w.game.gopherIndex);
    match IncI32(w.game.gopherIndex)
    case None => None
    case Some(next) =>
      Some(World(w.game.(gopherIndex := next), w.scene.(sprites := w.scene.sprites + {newLabel})))
  }

  /** A spawned label is fresh: no existing sprite carries it, so
      `add_sprite` never replaces one, and the invariant survives. */
  lemma SpawnIsFresh(w: World)
    requires Inv(w)
    requires Spawn(w).Some?
    ensures GopherLabel(w.game.gopherIndex) !in w.scene.sprites
    ensures Inv(Spawn(w).value)
  {
    var w' := Spawn(w).value;
    forall k | k >= w'.game.gopherIndex
      ensures GopherLabel(k) !in w'.scene.sprites
    {
      GopherLabelInjective(k, w.game.gopherIndex);
    }
  }

  /** The reset key: score back to zero, its text to "Score: 0"; the high
      score and everything else stay. */
  function Reset(w: World): (r: World)
    ensures r.game.score == 0
    ensures r.scene.scoreText == "Score: 0"
    ensures r.game.highScore == w.game.highScore
    ensures r.game.gopherIndex == w.game.gopherIndex
    ensures r.scene.(scoreText := w.scene.scoreText) == w.scene
    ensures Inv(w) ==> Inv(r)
  {
    assert ScoreText(0) == "Score: 0";
    World(w.game.(score := 0), w.scene.(scoreText := "Score: 0"))
  }

  function SpawnIf(spawn: bool, w: World): Option<World> {
    if spawn then Spawn(w) else Some(w)
  }

  /** How many gophers a frame asks to spawn: one per click, one per timer. */
  function SpawnCount(f: Frame): nat {
    (if f.leftClickInWindow then 1 else 0) + (if f.timerFinished then 1 else 0)
  }

  /** `game_logic`: the quit key, the collision events (all drained), the
      mouse spawn, the timer spawn and the reset key, in that order. */
  function FrameStep(w: World, f: Frame): Option<World> {
    var scene := w.scene.(shouldExit := w.scene.shouldExit || f.quitPressed, collisionEvents := []);
    match HandleCollisions(w.(scene := scene), w.scene.collisionEvents)
    case None => None
    case Some(w1) =>
      match SpawnIf(f.leftClickInWindow, w1)
      case None => None
      case Some(w2) =>
        match SpawnIf(f.timerFinished, w2)
        case None => None
        case Some(w3) => Some(if f.resetPressed then Reset(w3) else w3)
  }

  lemma SpawnIfPreservesInv(spawn: bool, w: World)
    requires Inv(w)
    requires SpawnIf(spawn, w).Some?
    ensures Inv(SpawnIf(spawn, w).value)
    ensures SpawnIf(spawn, w).value.game.highScore == w.game.highScore
    ensures SpawnIf(spawn, w).value.scene.collisionEvents == w.scene.collisionEvents
    ensures SpawnIf(spawn, w).value.scene.shouldExit == w.scene.shouldExit
  {
    if spawn {
      SpawnIsFresh(w);
    }
  }

  /** After a frame the invariant still holds, every collision event has
      been consumed, the high score has not gone down, and the exit flag is
      set once the quit key has been pressed (the frame still runs on). */
  lemma FrameStepPreservesInv(w: World, f: Frame)
    requires Inv(w)
    requires FrameStep(w, f).Some?
    ensures Inv(FrameStep(w, f).value)
    ensures FrameStep(w, f).value.scene.collisionEvents == []
    ensures FrameStep(w, f).value.game.highScore >= w.game.highScore
    ensures FrameStep(w, f).value.scene.shouldExit == (w.scene.shouldExit || f.quitPressed)
    ensures FrameStep(w, f).value.game.gopherIndex == w.game.gopherIndex + SpawnCount(f)
  {
    var scene := w.scene.(shouldExit := w.scene.shouldExit || f.quitPressed, collisionEvents := []);
    var w0 := w.(scene := scene);
    HandleCollisionsSummary(w0, w.scene.collisionEvents);
    HandleCollisionsKeepsIndex(w0, w.scene.collisionEvents);
    var w1 := HandleCollisions(w0, w.scene.collisionEvents).value;
    SpawnIfPreservesInv(f.leftClickInWindow, w1);
    var w2 := SpawnIf(f.leftClickInWindow, w1).value;
    SpawnIfPreservesInv(f.timerFinished, w2);
  }

  /** The engine hands the frame's collision events to the callback. */
  function Deliver(w: World, f: Frame): World {
    w.(scene := w.scene.(collisionEvents := f.collisions))
  }

  /** A run of frames from a given world; `None` if some frame panics. */
  function Run(w: World, frames: seq<Frame>): Option<World>
    decreases |frames|
  {
    if |frames| == 0 then Some(w)
    else match FrameStep(Deliver(w, frames[0]), frames[0])
      case None => None
      case Some(w1) => Run(w1, frames[1..])
  }

  /** Over any run from a world satisfying the invariant, the invariant
      (`high_score >= score`, texts in step, labels fresh) holds at the end
      and the high score never decreases. */
  lemma {:induction false} RunPreservesInv(w: World, frames: seq<Frame>)
    requires Inv(w)
    requires Run(w, frames).Some?
    ensures Inv(Run(w, frames).value)
    ensures Run(w, frames).value.game.highScore >= w.game.highScore
    ensures Run(w, frames).value.game.gopherIndex >= w.game.gopherIndex
    decreases |frames|
  {
    if |frames| > 0 {
      var d := Deliver(w, frames[0]);
      FrameStepPreservesInv(d, frames[0]);
      RunPreservesInv(FrameStep(d, frames[0]).value, frames[1..]);
    }
  }

  /** The labels the frame's spawns add, in order: the click's, then the
      timer's, each named by the counter at the moment it spawns. */
  ghost function FrameSpawnLabels(w: World, f: Frame): seq<string>
    requires FrameStep(w, f).Some?
  {
    var scene := w.scene.(shouldExit := w.scene.shouldExit || f.quitPressed, collisionEvents := []);
    var w1 := HandleCollisions(w.(scene := scene), w.scene.collisionEvents).value;
    var w2 := SpawnIf(f.leftClickInWindow, w1).value;
    (if f.leftClickInWindow then [GopherLabel(w1.game.gopherIndex)] else [])
      + (if f.timerFinished then [GopherLabel(w2.game.gopherIndex)] else [])
  }

  /** The labels spawned over a run, frame by frame. */
  ghost function RunSpawnLabels(w: World, frames: seq<Frame>): seq<string>
    requires Run(w, frames).Some?
    decreases |frames|
  {
    if |frames| == 0 then []
    else
      var d := Deliver(w, frames[0]);
      FrameSpawnLabels(d, frames[0]) + RunSpawnLabels(FrameStep(d, frames[0]).value, frames[1..])
  }

  /** A frame's spawns use consecutive counter values from where it starts. */
  lemma FrameSpawnsConsecutive(w: World, f: Frame)
    requires FrameStep(w, f).Some?
    ensures FrameStep(w, f).value.game.gopherIndex == w.game.gopherIndex + SpawnCount(f)
    ensures var labels := FrameSpawnLabels(w, f);
      && |labels| == SpawnCount(f)
      && forall i :: 0 <= i < |labels| ==> labels[i] == GopherLabel(w.game.gopherIndex + i)
  {
    var scene := w.scene.(shouldExit := w.scene.shouldExit || f.quitPressed, collisionEvents := []);
    HandleCollisionsKeepsIndex(w.(scene := scene), w.scene.collisionEvents);
  }

  /** Over a run, the spawned labels are `gopher{i}` for consecutive i from
      the starting counter up to the final one, in order. */
  lemma {:induction false} RunSpawnsConsecutive(w: World, frames: seq<Frame>)
    requires Run(w, frames).Some?
    ensures var labels := RunSpawnLabels(w, frames);
      && |labels| == Run(w, frames).value.game.gopherIndex - w.game.gopherIndex
      && forall i :: 0 <= i < |labels| ==> labels[i] == GopherLabel(w.game.gopherIndex + i)
    decreases |frames|
  {
    if |frames| > 0 {
      var d := Deliver(w, frames[0]);
      var w1 := FrameStep(d, frames[0]).value;
      FrameSpawnsConsecutive(d, frames[0]);
      RunSpawnsConsecutive(w1, frames[1..]);
      var head := FrameSpawnLabels(d, frames[0]);
      var tail := RunSpawnLabels(w1, frames[1..]);
      assert RunSpawnLabels(w, frames) == head + tail;
      forall i | |head| <= i < |head| + |tail|
        ensures (head + tail)[i] == GopherLabel(w.game.gopherIndex + i)
      {
        assert (head + tail)[i] == tail[i - |head|];
      }
    }
  }

  /** No label is spawned twice in a run, and when the run starts from a
      world satisfying the invariant, none names a sprite already there. */
  lemma SpawnedLabelsDistinct(w: World, frames: seq<Frame>)
    requires Run(w, frames).Some?
    ensures var labels := RunSpawnLabels(w, frames);
      forall i, j :: 0 <= i < j < |labels| ==> labels[i] != labels[j]
    ensures Inv(w) ==> forall l :: l in RunSpawnLabels(w, frames) ==> l !in w.scene.sprites
  {
    var labels := RunSpawnLabels(w, frames);
    RunSpawnsConsecutive(w, frames);
    forall i, j | 0 <= i < j < |labels|
      ensures labels[i] != labels[j]
    {
      GopherLabelInjective(w.game.gopherIndex + i, w.game.gopherIndex + j);
    }
  }

  /** Every world reached from the start of the game satisfies the invariant. */
  lemma ReachableInv(frames: seq<Frame>)
    requires Run(Initial(), frames).Some?
    ensures Inv(Run(Initial(), frames).value)
    ensures Run(Initial(), frames).value.game.highScore >= Run(Initial(), frames).value.game.score
  {
    InitialInv();
    RunPreservesInv(Initial(), frames);
  }
}
